=== FILE: README.md ===
# Smile decoder stream, modelled in Dafny

This project models the decoder stream of smile-js (`Smile.DecoderStream`). Smile is
Jackson's binary JSON format. The stream is a forward-only reader over the bytes of a
Smile document. Each method pulls exactly the bytes one primitive needs and returns
one value:

- unsigned and zig-zag signed variable-length integers (vints);
- length-prefixed ASCII and UTF-8 strings;
- 7-bit-safe fixed-width fields (the 32- and 64-bit floats);
- safe-binary blobs, and big integers folded from them;
- the operands of big decimals;
- long strings ended by the marker byte `0xFC`.

The input is an immutable `seq<byte>` plus a cursor `pos`. Every reader is a pure
function from `(bytes, pos, …)` to `Option<(value, next)>`. `None` means the byte
source ran out, which is how `read()` and `readArray(n)` fail in the source. On success
`next` is the cursor just after the consumed bytes.

Modules follow the structure of the code:

- `ByteSource` (`byte_source.dfy`): the byte source's `read` and `readArray`.
- `JsBits` (`js_bits.dfy`): the JavaScript 32-bit semantics of `<<`, `|` and `&`.
  These are `ToInt32`/`ToUint32` wrap-around plus bitwise AND/OR defined
  arithmetically. The vint fast path depends on them.
- `Vint` (`vint.dfy`): the `bitMask`/`shiftMultiplier` tables, `safeLeftShift`, and
  `readUnsignedVint`'s loop. Also a reference encoder, used only to state the round trip.
- `LongString` (`long_string.dfy`): `readLongString`.
- `BigInt` (`big_int.dfy`): the base-256 fold of `readBigInt`.
- `DecoderStream` (`decoder_stream.dfy`): the typed readers. The codec utilities
  (`Smile.Decoder.*`) are given to them as a `Codec` record of functions.
- `Arith`, `Wrappers`: powers and `Option`.

The codec utilities are not part of this model: `decodeZigZag`, `decodeAscii`,
`decodeUtf8`, `decodeFloat32`/`64`, `decodeFixedLengthBigEndianEncodedBits` and
`decodeSafeBinaryEncodedBits`. They are parameters, so each reader's contract says
which bytes reach which utility. Nothing is assumed about what those utilities compute
beyond the result types declared in `Codec`: unpacked bit fields are byte sequences, and
the float decoders return a `Float`, which is finite with a sign, a signed infinity, or NaN.

## Model

| member | source | states |
|---|---|---|
| Vint.MaskTables | src/main/js/decoderStream.js:6-7 | for every shift s below 8, `bitMask[s]` is 2^s - 1 and `shiftMultiplier[s]` is 2^s |
| Vint.ByteMask | src/main/js/decoderStream.js:32 | `n & bitMask[shift]`, computed with JavaScript's 32-bit `&`, keeps exactly the low `shift` bits of a byte (n mod 2^shift) |
| JsBits.ShiftLeftNoWrap | src/main/js/decoderStream.js:31 | `value <<= shift` equals value * 2^shift as long as the product stays below 2^31 (no 32-bit wrap-around) |
| JsBits.BitOrNoCarry | src/main/js/decoderStream.js:32 | the or-assignment (`value` OR m) adds m when the value's low `shift` bits are clear, m is below 2^shift, and the sum is below 2^31 |
| Vint.FastShiftIsArithmetic | src/main/js/decoderStream.js:30-32 | while bits + shift < 32 and value < 2^bits, the shift/or path gives value * 2^shift + (n mod 2^shift) |
| Vint.SlowShiftIsArithmetic | src/main/js/decoderStream.js:33-35 | the multiply/add path gives value * 2^shift + (n mod 2^shift) for every value |
| Vint.FastPathAgreesWithSlowPath | src/main/js/decoderStream.js:29-38 | whenever the fast path may be taken (value < 2^bits, bits + shift < 32), it returns the same value as the slow path |
| Vint.SafeLeftShift | src/main/js/decoderStream.js:29-38 | `safeLeftShift` appends the low `shift` bits of n (value * 2^shift + n mod 2^shift), adds `shift` to the bit count, and keeps value < 2^bits |
| Vint.IsTerminal | src/main/js/decoderStream.js:42 | the test `n & 0x80` is truthy exactly for bytes from 0x80 up |
| Vint.ReadVintFrom | src/main/js/decoderStream.js:40-48 | the loop fails iff no byte from the cursor on has bit 0x80 set; otherwise it stops at the first such byte and consumes exactly the bytes up to and including it; the value is the base-128 fold of the continuation bytes from the accumulator, times 64, plus the terminal's low 6 bits; the bit count grows by 7 per continuation byte and 6 for the terminal, and the value stays below 2^bits |
| Vint.ReadUnsignedVint | src/main/js/decoderStream.js:25-49 | `readUnsignedVint` fails iff no terminal byte follows the cursor; otherwise it consumes exactly one vint (k continuation bytes, then the first terminal byte) and returns its value, which is below 2^(7k+6) |
| Vint.VintRoundTrip | src/main/js/decoderStream.js:25-49 | the encoded form of any v, placed anywhere in the input, decodes to v with the cursor just after it |
| Vint.VintInPlace | src/main/js/decoderStream.js:25-49 | whenever the bytes at the cursor are the encoded form of v, whatever follows them, `readUnsignedVint` returns v with the cursor just after the encoding |
| Vint.LoneTerminalByte | src/main/js/decoderStream.js:42-44 | a single terminal byte n decodes to `n & 0x3F` and consumes one byte |
| DecoderStream.ReadSignedVint | src/main/js/decoderStream.js:51-53 | `readSignedVint` fails iff the unsigned read fails; otherwise it consumes exactly one vint and returns `decodeZigZag` of that vint's value |
| DecoderStream.SignedVintRoundTrip | src/main/js/decoderStream.js:51-53 | the encoded vint of u, anywhere in the input, reads back as `decodeZigZag(u)` with the cursor just after it |
| DecoderStream.SignedVintInPlace | src/main/js/decoderStream.js:51-53 | whenever the bytes at the cursor are the encoded vint of u, `readSignedVint` returns `decodeZigZag(u)` with the cursor just after them |
| DecoderStream.ReadAscii | src/main/js/decoderStream.js:55-57 | `readAscii(len)` succeeds iff at least len bytes remain; it then consumes exactly len bytes and returns `decodeAscii` of them |
| DecoderStream.ReadUtf8 | src/main/js/decoderStream.js:59-61 | `readUtf8(len)` succeeds iff at least len bytes remain; it then consumes exactly len bytes and returns `decodeUtf8` of them |
| DecoderStream.SevenBitGroups | src/main/js/decoderStream.js:72 | `Math.ceil(bits / 7)` is the least k with 7k >= bits |
| DecoderStream.ReadFixedLengthBigEndianEncodedBits | src/main/js/decoderStream.js:71-74 | succeeds iff the remaining bytes carry at least `bits` bits at 7 per byte; it then consumes exactly ceil(bits/7) bytes and passes them, with bits and the endianness flag, to the codec |
| DecoderStream.ReadFloat32 | src/main/js/decoderStream.js:63-65 | consumes exactly 5 bytes (fails if fewer remain) and decodes them as a 32-bit field with endianness adjustment |
| DecoderStream.ReadFloat64 | src/main/js/decoderStream.js:67-69 | consumes exactly 10 bytes (fails if fewer remain) and decodes them as a 64-bit field with endianness adjustment |
| DecoderStream.ReadSafeBinary | src/main/js/decoderStream.js:76-80 | reads a vint length L, then succeeds iff the remaining bytes carry L*8 bits at 7 per byte; it then consumes exactly ceil(L*8/7) more bytes and unpacks them as L*8 bits |
| DecoderStream.SafeBinaryOfThreeBytes | src/main/js/decoderStream.js:78 | a blob of length 3 takes exactly 4 packed bytes after its length vint |
| DecoderStream.SafeBinaryInPlace | src/main/js/decoderStream.js:76-80 | whenever the encoded vint of a length L sits at the cursor and ceil(L*8/7) bytes follow it, `readSafeBinary` returns the codec's unpacking of exactly those bytes as L*8 bits, with the cursor just after them |
| BigInt.FoldBase256 | src/main/js/decoderStream.js:84-88 | running the loop `n = n * 256 + array[i]` from n over the bytes gives n * 256^len + the positional big-endian value of the bytes |
| BigInt.FoldBytes | src/main/js/decoderStream.js:84-89 | the loop started from 0 computes the positional big-endian base-256 value of the bytes |
| BigInt.FoldSnoc | src/main/js/decoderStream.js:87 | folding a + [b] gives fold(a) * 256 + b |
| BigInt.FoldBound | src/main/js/decoderStream.js:82-90 | the fold of n bytes is below 256^n |
| BigInt.LeadingZeros | src/main/js/decoderStream.js:82-90 | leading zero bytes do not change the folded value |
| BigInt.FoldExample | src/main/js/decoderStream.js:82-90 | the bytes 0x01 0x00 fold to 256 |
| DecoderStream.ReadBigInt | src/main/js/decoderStream.js:82-90 | `readBigInt` fails iff `readSafeBinary` fails; otherwise it consumes what that read consumed and returns the big-endian value of the blob, which is below 256^length |
| DecoderStream.ReadBigDecimalOperands | src/main/js/decoderStream.js:92-94 | `readBigDecimal` fails iff the scale vint at the cursor is missing, the length vint after it is missing, or too few bytes remain for the packed blob; otherwise the scale is `decodeZigZag` of the first vint's value and the magnitude is the big-endian value of the codec's unpacking of the ceil(L*8/7) bytes after the second vint, whose value is the byte length L |
| LongString.ReadLongStringFrom | src/main/js/decoderStream.js:99-106 | the loop fails iff no 0xFC follows the cursor; otherwise it stops at the first 0xFC, consumes it, and has appended exactly the bytes before it to the buffer |
| LongString.ReadLongString | src/main/js/decoderStream.js:98-108 | `readLongString` returns exactly the bytes before the first 0xFC, never containing 0xFC, with the cursor just after the marker; it fails if there is no 0xFC |
| LongString.LongStringRoundTrip | src/main/js/decoderStream.js:98-108 | any marker-free payload followed by 0xFC, anywhere in the input, reads back whole with the cursor just after the marker |
| LongString.LongStringExample | src/main/js/decoderStream.js:98-108 | the bytes 0x41 0x42 0xFC 0x43 read as 0x41 0x42, with the cursor on 0x43 |
| DecoderStream.ReadLongAscii | src/main/js/decoderStream.js:110-112 | `decodeAscii` of exactly the bytes before the first 0xFC, with the marker consumed; fails iff there is no 0xFC |
| DecoderStream.ReadLongUtf8 | src/main/js/decoderStream.js:114-116 | `decodeUtf8` of exactly the bytes before the first 0xFC, with the marker consumed; fails iff there is no 0xFC |

## Left out

- `isEof`, `read` and `peek` on the stream (decoderStream.js:13-23) forward to the input
  stream unchanged. The input stream itself is modelled only as `ByteSource.Read` and
  `ByteSource.ReadArray` over a byte sequence.
- The `window.Smile` namespace wiring and the `DecoderStream` constructor hold no logic
  beyond storing the input stream.
- The codec utilities in `Smile.Decoder` are not part of this model. They are supplied
  as `DecoderStream.Codec`. The only property assumed of them is that their results have
  the types declared there.
- DecoderStream.ReadBigInt: the blob is assumed to hold bytes 0..255, because
  `decodeSafeBinaryEncodedBits` is typed to return bytes. The bound below 256^length rests
  on that typing. The JavaScript fold adds whatever numbers the codec returns.
- Vint.SafeLeftShift: the model returns the exact value where JavaScript may round to a
  double, which can happen once the accumulated value reaches 2^53. The slow path and the
  final value are doubles in the source.
- Vint.VintRoundTrip: the source guarantees the round trip only below 2^53. Above that,
  the `+=` at decoderStream.js:35 may round at each step, so the result can differ from
  the encoded value and from the double nearest to it. The same bound applies to
  Vint.ReadUnsignedVint's value and to DecoderStream.SignedVintRoundTrip.
- BigInt.FoldBase256: the fold is exact on unbounded integers. The JavaScript fold
  accumulates in a double and loses exactness above 2^53.
- DecoderStream.ReadBigDecimalOperands: returns the scale and magnitude but not the
  value. The source computes it as `magnitude * Math.pow(10, scale)` in floating point,
  which is not modelled. Note the source multiplies by 10^scale rather than dividing.
- DecoderStream.ReadFloat32 / ReadFloat64: the floating-point value comes from the
  codec and is not reconstructed here. It is a `Float`, so NaN, the infinities and -0.0
  are representable, but no bit pattern is mapped to any of them.
- JsBits.ShiftLeft: models `<<` only for non-negative shift counts, taken modulo 32.
  The source shifts only by 6 or 7.
- After a failed read the cursor position is undefined in the source. The model
  returns `None` with no position.

=== FILE: arith.dfy ===
/** Natural-number powers and the few facts about them the decoders need. */
module Arith {

  function Power(b: nat, e: nat): (r: nat)
    ensures b > 0 ==> r > 0
  {
    if e == 0 then 1 else b * Power(b, e - 1)
  }

  lemma {:induction false} PowerAdd(b: nat, x: nat, y: nat)
    ensures Power(b, x + y) == Power(b, x) * Power(b, y)
  {
    if y > 0 {
      PowerAdd(b, x, y - 1);
      calc {
        Power(b, x + y);
        b * Power(b, x + y - 1);
        b * (Power(b, x) * Power(b, y - 1));
        Power(b, x) * (b * Power(b, y - 1));
      }
    }
  }

  lemma {:induction false} PowerMonotone(b: nat, x: nat, y: nat)
    requires b > 0 && x <= y
    ensures Power(b, x) <= Power(b, y)
  {
    if x < y {
      PowerMonotone(b, x, y - 1);
    }
  }

  /** If a < b then a*c + rem < b*c for every remainder rem < c. */
  lemma MulStrictBound(a: nat, b: nat, c: nat, rem: nat)
    requires a < b && rem < c
    ensures a * c + rem < b * c
  {
    assert (a + 1) * c <= b * c;
  }

  lemma MulAtLeast(d: int, x: int)
    requires d > 0 && x >= 1
    ensures d * x >= d
  {
  }

  /** Euclidean division is determined by quotient and remainder. */
  lemma DivModUnique(a: int, d: int, q: int, rem: int)
    requires d > 0 && 0 <= rem < d && a == d * q + rem
    ensures a / d == q && a % d == rem
  {
    var q0 := a / d;
    var rem0 := a % d;
    assert d * q0 + rem0 == d * q + rem;
    assert d * (q - q0) == rem0 - rem by {
      assert d * (q - q0) == d * q - d * q0;
    }
    if q > q0 {
      MulAtLeast(d, q - q0);
      assert false;
    } else if q < q0 {
      assert d * (q0 - q) == rem - rem0;
      MulAtLeast(d, q0 - q);
      assert false;
    }
  }
}

=== FILE: big_int.dfy ===
/**
 * The fold at the heart of `readBigInt`: the unpacked safe-binary bytes
 * read as one big-endian base-256 number.
 */
module BigInt {
  import opened Arith
  import opened ByteSource

  /** Positional meaning of a big-endian byte string: a[i] weighs 256^(|a|-1-i). */
  ghost function BigEndian(a: seq<byte>): nat
  {
    if a == [] then 0 else a[0] * Power(256, |a| - 1) + BigEndian(a[1..])
  }

  /**
   * The `for` loop of `readBigInt`: `n = (n * 256) + array[i]` over the
   * remaining bytes, starting from the value `n` folded so far.
   */
  function FoldBase256(n: nat, a: seq<byte>): (r: nat)
    decreases a
    ensures r == n * Power(256, |a|) + BigEndian(a)
  {
    if a == [] then n
    else
      var r := FoldBase256(n * 256 + a[0], a[1..]);
      var p := Power(256, |a| - 1);
      calc {
        r;
        (n * 256 + a[0]) * p + BigEndian(a[1..]);
        n * (256 * p) + a[0] * p + BigEndian(a[1..]);
      }
      r
  }

  /** The loop started from n = 0, as `readBigInt` runs it. */
  function FoldBytes(a: seq<byte>): (r: nat)
    ensures r == BigEndian(a)
  {
    FoldBase256(0, a)
  }

  lemma {:induction false} BigEndianSnoc(a: seq<byte>, b: byte)
    ensures BigEndian(a + [b]) == BigEndian(a) * 256 + b
  {
    if a != [] {
      assert (a + [b])[1..] == a[1..] + [b];
      BigEndianSnoc(a[1..], b);
      var p := Power(256, |a| - 1);
      calc {
        BigEndian(a + [b]);
        a[0] * (256 * p) + BigEndian(a[1..] + [b]);
        a[0] * (256 * p) + BigEndian(a[1..]) * 256 + b;
        (a[0] * p + BigEndian(a[1..])) * 256 + b;
      }
    }
  }

  /** Appending one byte multiplies the folded value by 256 and adds the byte. */
  lemma FoldSnoc(a: seq<byte>, b: byte)
    ensures FoldBytes(a + [b]) == FoldBytes(a) * 256 + b
  {
    BigEndianSnoc(a, b);
  }

  /** An n-byte string folds to a value below 256^n. */
  lemma {:induction false} FoldBound(a: seq<byte>)
    ensures FoldBytes(a) < Power(256, |a|)
  {
    if a != [] {
      FoldBound(a[1..]);
      var p := Power(256, |a| - 1);
      MulStrictBound(a[0], 256, p, BigEndian(a[1..]));
    }
  }

  /** Leading zero bytes do not change the folded value. */
  lemma {:induction false} LeadingZeros(zeros: seq<byte>, a: seq<byte>)
    requires forall i :: 0 <= i < |zeros| ==> zeros[i] == 0
    ensures FoldBytes(zeros + a) == FoldBytes(a)
  {
    if zeros != [] {
      var za := zeros + a;
      assert za[0] == 0;
      assert za[1..] == zeros[1..] + a;
      LeadingZeros(zeros[1..], a);
      assert BigEndian(za) == 0 * Power(256, |za| - 1) + BigEndian(za[1..]);
    } else {
      assert zeros + a == a;
    }
  }

  /** The two bytes 0x01 0x00 fold to 256. */
  lemma FoldExample()
    ensures FoldBytes([0x01, 0x00]) == 256
  {
    FoldSnoc([0x01], 0x00);
    assert [0x01] + [0x00] == [0x01, 0x00];
  }
}

=== FILE: byte_source.dfy ===
/**
 * The byte source the decoder stream pulls from, as an immutable byte
 * sequence and a cursor. Every read either yields its bytes and the
 * advanced cursor, or fails (None) when too few bytes remain.
 */
module ByteSource {
  import opened Wrappers

  type byte = b: int | 0 <= b < 0x100

  /** `read()`: the byte under the cursor; fails at the end of the input. */
  function Read(s: seq<byte>, pos: nat): (r: Option<(byte, nat)>)
    ensures r.Some? <==> pos < |s|
    ensures r.Some? ==> r.value.0 == s[pos] && r.value.1 == pos + 1
  {
    if pos < |s| then Some((s[pos], pos + 1)) else None
  }

  /** `readArray(n)`: the next n bytes; fails if fewer than n remain. */
  function ReadArray(s: seq<byte>, pos: nat, n: nat): (r: Option<(seq<byte>, nat)>)
    ensures r.Some? <==> pos + n <= |s|
    ensures r.Some? ==> |r.value.0| == n && r.value.1 == pos + n
    ensures r.Some? ==> forall i :: 0 <= i < n ==> r.value.0[i] == s[pos + i]
  {
    if pos + n <= |s| then Some((s[pos..pos + n], pos + n)) else None
  }

  /** When n bytes remain, `readArray(n)` yields exactly the slice under the cursor. */
  lemma ReadArrayIsSlice(s: seq<byte>, pos: nat, n: nat)
    requires pos + n <= |s|
    ensures ReadArray(s, pos, n) == Some((s[pos..pos + n], pos + n))
  {
  }
}

=== FILE: decoder_stream.dfy ===
/**
 * The typed readers of the Smile decoder stream. Each takes the input and
 * a cursor, pulls exactly the bytes its primitive needs, and hands them to
 * the codec utilities. The codec utilities themselves (`Smile.Decoder`)
 * are not modelled: they are supplied as a `Codec` record of functions.
 */
module DecoderStream {
  import opened Wrappers
  import opened Arith
  import opened ByteSource
  import opened Vint
  import opened LongString
  import opened BigInt

  /**
   * An IEEE 754 value as the float decoders return it: a finite magnitude
   * with its sign kept apart (so -0.0 is `Finite(0.0, true)`), a signed
   * infinity, or NaN.
   */
  datatype Float = Finite(magnitude: NonNegReal, negative: bool) | Infinity(negative: bool) | NaN

  /** A magnitude: a real number that is never negative. */
  type NonNegReal = x: real | x >= 0.0

  /**
   * The codec utilities the stream delegates to. Their results are assumed
   * to have the types given here: unpacked bit fields are byte strings, so
   * every element is a byte.
   */
  datatype Codec = Codec(
    decodeZigZag: nat -> int,
    decodeAscii: seq<byte> -> string,
    decodeUtf8: seq<byte> -> string,
    decodeFloat32: seq<byte> -> Float,
    decodeFloat64: seq<byte> -> Float,
    decodeFixedLengthBigEndianEncodedBits: (seq<byte>, nat, bool) -> seq<byte>,
    decodeSafeBinaryEncodedBits: (seq<byte>, nat) -> seq<byte>)

  /** `Math.ceil(bits / 7)`: the number of 7-bit bytes that carry `bits` bits. */
  function SevenBitGroups(bits: nat): (k: nat)
    ensures 7 * k >= bits
    ensures 7 * k < bits + 7
  {
    (bits + 6) / 7
  }

  /** `readSignedVint()`: the zig-zag decoding of one unsigned vint. */
  function ReadSignedVint(s: seq<byte>, pos: nat, codec: Codec): (r: Option<(int, nat)>)
    ensures r.Some? <==> ReadUnsignedVint(s, pos).Some?
    ensures r.Some? ==> VintAt(s, pos, r.value.1)
    ensures r.Some? ==>
      var next := r.value.1;
      r.value.0 == codec.decodeZigZag(VintValue(s[pos..next]))
  {
    match ReadUnsignedVint(s, pos)
    case None => None
    case Some(u) => Some((codec.decodeZigZag(u.0), u.1))
  }

  /** `readAscii(len)`: exactly `len` bytes, decoded as ASCII; fails if fewer remain. */
  function ReadAscii(s: seq<byte>, pos: nat, len: nat, codec: Codec): (r: Option<(string, nat)>)
    ensures r.Some? <==> pos + len <= |s|
    ensures r.Some? ==> r.value == (codec.decodeAscii(s[pos..pos + len]), pos + len)
  {
    match ReadArray(s, pos, len)
    case None => None
    case Some(a) => Some((codec.decodeAscii(a.0), a.1))
  }

  /** `readUtf8(len)`: exactly `len` bytes, decoded as UTF-8; fails if fewer remain. */
  function ReadUtf8(s: seq<byte>, pos: nat, len: nat, codec: Codec): (r: Option<(string, nat)>)
    ensures r.Some? <==> pos + len <= |s|
    ensures r.Some? ==> r.value == (codec.decodeUtf8(s[pos..pos + len]), pos + len)
  {
    match ReadArray(s, pos, len)
    case None => None
    case Some(a) => Some((codec.decodeUtf8(a.0), a.1))
  }

  /** `readFixedLengthBigEndianEncodedBits(bits, adjustEndianness)`: one 7-bit byte per started group of 7 bits. */
  function ReadFixedLengthBigEndianEncodedBits(s: seq<byte>, pos: nat, bits: nat, adjust: bool, codec: Codec)
    : (r: Option<(seq<byte>, nat)>)
    ensures r.Some? <==> 7 * (|s| - pos) >= bits
    ensures r.Some? ==> 7 * (r.value.1 - pos - 1) < bits <= 7 * (r.value.1 - pos)
    ensures r.Some? ==>
      var next := r.value.1;
      r.value.0 == codec.decodeFixedLengthBigEndianEncodedBits(s[pos..next], bits, adjust)
  {
    match ReadArray(s, pos, SevenBitGroups(bits))
    case None => None
    case Some(a) => Some((codec.decodeFixedLengthBigEndianEncodedBits(a.0, bits, adjust), a.1))
  }

  /** `readFloat32()`: a 32-bit field packed into five 7-bit bytes. */
  function ReadFloat32(s: seq<byte>, pos: nat, codec: Codec): (r: Option<(Float, nat)>)
    ensures r.Some? <==> pos + 5 <= |s|
    ensures r.Some? ==> r.value.1 == pos + 5
    ensures r.Some? ==>
      r.value.0 == codec.decodeFloat32(codec.decodeFixedLengthBigEndianEncodedBits(s[pos..pos + 5], 32, true))
  {
    match ReadFixedLengthBigEndianEncodedBits(s, pos, 32, true, codec)
    case None => None
    case Some(b) => Some((codec.decodeFloat32(b.0), b.1))
  }

  /** `readFloat64()`: a 64-bit field packed into ten 7-bit bytes. */
  function ReadFloat64(s: seq<byte>, pos: nat, codec: Codec): (r: Option<(Float, nat)>)
    ensures r.Some? <==> pos + 10 <= |s|
    ensures r.Some? ==> r.value.1 == pos + 10
    ensures r.Some? ==>
      r.value.0 == codec.decodeFloat64(codec.decodeFixedLengthBigEndianEncodedBits(s[pos..pos + 10], 64, true))
  {
    match ReadFixedLengthBigEndianEncodedBits(s, pos, 64, true, codec)
    case None => None
    case Some(b) => Some((codec.decodeFloat64(b.0), b.1))
  }

  /** The bytes from `start` to `next` are exactly enough 7-bit bytes to carry `bits` bits. */
  ghost predicate PackedSpan(start: nat, next: nat, bits: nat)
  {
    start <= next && 7 * (next - start - 1) < bits <= 7 * (next - start)
  }

  /**
   * `readSafeBinary()`: a vint byte length L, then the 7-bit packed form of
   * L * 8 bits, unpacked by the codec.
   */
  function ReadSafeBinary(s: seq<byte>, pos: nat, codec: Codec): (r: Option<(seq<byte>, nat)>)
    ensures var v := ReadUnsignedVint(s, pos); r.Some? <==> v.Some? && 7 * (|s| - v.value.1) >= v.value.0 * 8
    ensures var v := ReadUnsignedVint(s, pos); r.Some? ==> PackedSpan(v.value.1, r.value.1, v.value.0 * 8)
    ensures var v := ReadUnsignedVint(s, pos); r.Some? ==>
      var next := r.value.1;
      r.value.0 == codec.decodeSafeBinaryEncodedBits(s[v.value.1..next], v.value.0 * 8)
  {
    match ReadUnsignedVint(s, pos)
    case None => None
    case Some(v) =>
      match ReadArray(s, v.1, SevenBitGroups(v.0 * 8))
      case None => None
      case Some(a) => Some((codec.decodeSafeBinaryEncodedBits(a.0, v.0 * 8), a.1))
  }

  /** A blob of three bytes travels as four packed bytes after its length. */
  lemma SafeBinaryOfThreeBytes(s: seq<byte>, pos: nat, codec: Codec)
    requires ReadUnsignedVint(s, pos).Some? && ReadUnsignedVint(s, pos).value.0 == 3
    ensures ReadSafeBinary(s, pos, codec).Some? <==> ReadUnsignedVint(s, pos).value.1 + 4 <= |s|
    ensures ReadSafeBinary(s, pos, codec).Some? ==>
      ReadSafeBinary(s, pos, codec).value.1 == ReadUnsignedVint(s, pos).value.1 + 4
  {
  }

  /** `readBigInt()`: the safe-binary blob folded big-endian in base 256. */
  function ReadBigInt(s: seq<byte>, pos: nat, codec: Codec): (r: Option<(nat, nat)>)
    ensures r.Some? <==> ReadSafeBinary(s, pos, codec).Some?
    ensures r.Some? ==>
      var blob := ReadSafeBinary(s, pos, codec).value;
      r.value == (BigEndian(blob.0), blob.1) && r.value.0 < Power(256, |blob.0|)
  {
    match ReadSafeBinary(s, pos, codec)
    case None => None
    case Some(blob) =>
      FoldBound(blob.0);
      Some((FoldBytes(blob.0), blob.1))
  }

  /** The two numbers `readBigDecimal()` combines: a decimal scale and an unscaled magnitude. */
  datatype BigDecimalOperands = BigDecimalOperands(scale: int, magnitude: nat)

  /**
   * The operands of `readBigDecimal()`, in wire order: the scale as a signed
   * vint, then the magnitude as a big integer starting right after it.
   */
  function ReadBigDecimalOperands(s: seq<byte>, pos: nat, codec: Codec)
    : (r: Option<(BigDecimalOperands, nat)>)
    ensures r.Some? <==>
      var scale := ReadUnsignedVint(s, pos);
      && scale.Some?
      && var len := ReadUnsignedVint(s, scale.value.1);
      && len.Some?
      && 7 * (|s| - len.value.1) >= len.value.0 * 8
    ensures r.Some? ==>
      var m := ReadUnsignedVint(s, pos).value.1;
      var len := ReadUnsignedVint(s, m).value;
      var next := r.value.1;
      && VintAt(s, pos, m)
      && r.value.0.scale == codec.decodeZigZag(VintValue(s[pos..m]))
      && VintAt(s, m, len.1)
      && len.0 == VintValue(s[m..len.1])
      && PackedSpan(len.1, next, len.0 * 8)
      && r.value.0.magnitude == BigEndian(codec.decodeSafeBinaryEncodedBits(s[len.1..next], len.0 * 8))
  {
    match ReadSignedVint(s, pos, codec)
    case None => None
    case Some(scale) =>
      match ReadBigInt(s, scale.1, codec)
      case None => None
      case Some(magnitude) => Some((BigDecimalOperands(scale.0, magnitude.0), magnitude.1))
  }

  /**
   * A blob whose byte length L is written as a vint at the cursor reads back
   * as the codec's unpacking of the ceil(L * 8 / 7) bytes after that vint,
   * with the cursor just after them, whatever surrounds it.
   */
  lemma SafeBinaryInPlace(s: seq<byte>, pos: nat, len: nat, codec: Codec)
    requires pos + |EncodeVint(len)| + SevenBitGroups(len * 8) <= |s|
    requires s[pos..pos + |EncodeVint(len)|] == EncodeVint(len)
    ensures var start := pos + |EncodeVint(len)|;
      var next := start + SevenBitGroups(len * 8);
      ReadSafeBinary(s, pos, codec) == Some((codec.decodeSafeBinaryEncodedBits(s[start..next], len * 8), next))
  {
    var start := pos + |EncodeVint(len)|;
    var next := start + SevenBitGroups(len * 8);
    VintInPlace(s, pos, len);
    ReadArrayIsSlice(s, start, SevenBitGroups(len * 8));
    SafeBinaryOfParts(s, pos, codec, len, start, s[start..next], next);
  }

  /** The blob is the codec's unpacking of the packed bytes after the length vint. */
  lemma SafeBinaryOfParts(s: seq<byte>, pos: nat, codec: Codec, len: nat, start: nat, packed: seq<byte>, next: nat)
    requires ReadUnsignedVint(s, pos) == Some((len, start))
    requires ReadArray(s, start, SevenBitGroups(len * 8)) == Some((packed, next))
    ensures ReadSafeBinary(s, pos, codec) == Some((codec.decodeSafeBinaryEncodedBits(packed, len * 8), next))
  {
  }

  /** A signed vint written as the vint of u at the cursor reads back as `decodeZigZag(u)`. */
  lemma SignedVintInPlace(s: seq<byte>, pos: nat, u: nat, codec: Codec)
    requires pos + |EncodeVint(u)| <= |s|
    requires s[pos..pos + |EncodeVint(u)|] == EncodeVint(u)
    ensures ReadSignedVint(s, pos, codec) == Some((codec.decodeZigZag(u), pos + |EncodeVint(u)|))
  {
    VintInPlace(s, pos, u);
  }

  /** `readLongAscii()`: the bytes before the end marker, decoded as ASCII. */
  function ReadLongAscii(s: seq<byte>, pos: nat, codec: Codec): (r: Option<(string, nat)>)
    ensures r.None? <==> forall i :: pos <= i < |s| ==> s[i] != EndMarker
    ensures r.Some? ==> pos < r.value.1 <= |s| && s[r.value.1 - 1] == EndMarker
    ensures r.Some? ==> forall i :: pos <= i < r.value.1 - 1 ==> s[i] != EndMarker
    ensures r.Some? ==> var next := r.value.1; r.value.0 == codec.decodeAscii(s[pos..next - 1])
  {
    match ReadLongString(s, pos)
    case None => None
    case Some(b) => Some((codec.decodeAscii(b.0), b.1))
  }

  /** `readLongUtf8()`: the bytes before the end marker, decoded as UTF-8. */
  function ReadLongUtf8(s: seq<byte>, pos: nat, codec: Codec): (r: Option<(string, nat)>)
    ensures r.None? <==> forall i :: pos <= i < |s| ==> s[i] != EndMarker
    ensures r.Some? ==> pos < r.value.1 <= |s| && s[r.value.1 - 1] == EndMarker
    ensures r.Some? ==> forall i :: pos <= i < r.value.1 - 1 ==> s[i] != EndMarker
    ensures r.Some? ==> var next := r.value.1; r.value.0 == codec.decodeUtf8(s[pos..next - 1])
  {
    match ReadLongString(s, pos)
    case None => None
    case Some(b) => Some((codec.decodeUtf8(b.0), b.1))
  }

  /** A signed vint written as the vint of u reads back as the zig-zag decoding of u. */
  lemma SignedVintRoundTrip(pre: seq<byte>, u: nat, rest: seq<byte>, codec: Codec)
    ensures ReadSignedVint(pre + EncodeVint(u) + rest, |pre|, codec) ==
      Some((codec.decodeZigZag(u), |pre| + |EncodeVint(u)|))
  {
    VintRoundTrip(pre, u, rest);
  }
}

=== FILE: js_bits.dfy ===
/**
 * The JavaScript number semantics the vint fast path relies on: the
 * bitwise operators `<<`, `|` and `&` convert their operands to 32-bit
 * two's complement integers and return a signed 32-bit result. Bitwise
 * AND and OR are defined here arithmetically on naturals, bit by bit.
 */
module JsBits {
  import opened Arith

  const TwoTo31: int := 0x8000_0000
  const TwoTo32: int := 0x1_0000_0000

  /** ECMAScript ToUint32 for integral numbers: reduction modulo 2^32. */
  function ToUint32(x: int): (u: nat)
    ensures u < TwoTo32
  {
    x % TwoTo32
  }

  /** ECMAScript ToInt32 for integral numbers: the 32-bit pattern read as two's complement. */
  function ToInt32(x: int): (i: int)
    ensures -TwoTo31 <= i < TwoTo31
  {
    var u := ToUint32(x);
    if u >= TwoTo31 then u - TwoTo32 else u
  }

  /** Bitwise AND of two naturals, lowest bit first. */
  function And(a: nat, b: nat): nat
  {
    if a == 0 || b == 0 then 0
    else 2 * And(a / 2, b / 2) + (if a % 2 == 1 && b % 2 == 1 then 1 else 0)
  }

  /** Bitwise OR of two naturals, lowest bit first. */
  function Or(a: nat, b: nat): nat
  {
    if a == 0 then b
    else if b == 0 then a
    else 2 * Or(a / 2, b / 2) + (if a % 2 == 1 || b % 2 == 1 then 1 else 0)
  }

  /** `a << k` for a non-negative count: the count is taken modulo 32 and the result wraps to 32 bits. */
  function ShiftLeft(a: int, k: nat): int
  {
    ToInt32(ToInt32(a) * Power(2, k % 32))
  }

  /** `a & b` on 32-bit patterns. */
  function BitAnd(a: int, b: int): int
  {
    ToInt32(And(ToUint32(a), ToUint32(b)))
  }

  /** `a | b` on 32-bit patterns. */
  function BitOr(a: int, b: int): int
  {
    ToInt32(Or(ToUint32(a), ToUint32(b)))
  }

  /** Small non-negative numbers pass through both 32-bit conversions unchanged. */
  lemma Int32Identity(x: int)
    requires 0 <= x < TwoTo31
    ensures ToUint32(x) == x && ToInt32(x) == x
  {
  }

  lemma ModOfDouble(a: nat, p: nat)
    requires p > 0
    ensures a % (2 * p) == 2 * ((a / 2) % p) + a % 2
  {
    var h := a / 2;
    var q := h / p;
    var t := h % p;
    assert h == p * q + t;
    assert a == 2 * h + a % 2;
    assert a == (2 * p) * q + (2 * t + a % 2);
    DivModUnique(a, 2 * p, q, 2 * t + a % 2);
  }

  lemma AndOddMask(a: nat, p: nat)
    requires a > 0 && p > 0
    ensures And(a, 2 * p - 1) == 2 * And(a / 2, p - 1) + a % 2
  {
    var m := 2 * p - 1;
    assert m / 2 == p - 1 && m % 2 == 1 && m != 0;
  }

  lemma {:induction false} AndAtMost(a: nat, b: nat)
    ensures And(a, b) <= b
  {
    if a != 0 && b != 0 {
      AndAtMost(a / 2, b / 2);
    }
  }

  lemma AndLowMaskStep(a: nat, p: nat, big: nat)
    requires a > 0 && p > 0 && big == 2 * p
    requires And(a / 2, p - 1) == (a / 2) % p
    ensures And(a, big - 1) == a % big
  {
    AndOddMask(a, p);
    ModOfDouble(a, p);
  }

  /** AND with the mask 2^s - 1 keeps exactly the low s bits. */
  lemma {:induction false} AndLowMask(a: nat, s: nat)
    ensures And(a, Power(2, s) - 1) == a % Power(2, s)
  {
    var big := Power(2, s);
    if s == 0 {
      assert big == 1;
    } else if a == 0 {
      assert And(a, big - 1) == 0;
      assert a % big == 0;
    } else {
      assert And(a, big - 1) == a % big by {
        AndLowMask(a / 2, s - 1);
        AndLowMaskStep(a, Power(2, s - 1), big);
      }
    }
  }

  /** For a number below 2^(k+1), AND with the single bit 2^k tests whether it reaches 2^k. */
  lemma {:induction false} AndTopBit(a: nat, k: nat)
    requires a < Power(2, k + 1)
    ensures And(a, Power(2, k)) != 0 <==> a >= Power(2, k)
  {
    if k > 0 && a > 0 {
      var p := Power(2, k);
      assert p / 2 == Power(2, k - 1) && p % 2 == 0;
      AndTopBit(a / 2, k - 1);
    }
  }

  /** OR of a multiple of 2^s with a number below 2^s is their sum: the bits do not overlap. */
  lemma {:induction false} OrShifted(v: nat, s: nat, m: nat)
    requires m < Power(2, s)
    ensures Or(v * Power(2, s), m) == v * Power(2, s) + m
  {
    if s > 0 && v * Power(2, s) != 0 && m != 0 {
      var x := v * Power(2, s);
      assert x == 2 * (v * Power(2, s - 1));
      assert x / 2 == v * Power(2, s - 1) && x % 2 == 0;
      OrShifted(v, s - 1, m / 2);
    }
  }

  lemma Power2To31()
    ensures Power(2, 31) == TwoTo31
  {
    assert Power(2, 7) == 0x80;
    assert Power(2, 8) == 0x100;
    PowerAdd(2, 8, 8);
    PowerAdd(2, 16, 8);
    PowerAdd(2, 24, 7);
  }

  /** `a << k` does not wrap while the shifted value stays below 2^31. */
  lemma ShiftLeftNoWrap(a: nat, k: nat)
    requires k < 32 && a < TwoTo31 && a * Power(2, k) < TwoTo31
    ensures ShiftLeft(a, k) == a * Power(2, k)
  {
    var x := a * Power(2, k);
    assert k % 32 == k;
    Int32Identity(a);
    assert ToInt32(a) * Power(2, k % 32) == x;
    Int32Identity(x);
  }

  /** `x | m` adds m when x is a multiple of 2^s, m is below 2^s and the sum fits in 31 bits. */
  lemma BitOrNoCarry(v: nat, s: nat, m: nat)
    requires m < Power(2, s) && v * Power(2, s) + m < TwoTo31
    ensures BitOr(v * Power(2, s), m) == v * Power(2, s) + m
  {
    Int32Identity(v * Power(2, s));
    Int32Identity(m);
    OrShifted(v, s, m);
    Int32Identity(v * Power(2, s) + m);
  }
}

=== FILE: long_string.dfy ===
/**
 * `readLongString`: raw bytes up to the end marker 0xFC. The marker is
 * consumed but not returned; there is no length prefix.
 */
module LongString {
  import opened Wrappers
  import opened ByteSource

  const EndMarker: byte := 0xFC

  /**
   * The `while (true)` loop of `readLongString` with the bytes pushed so
   * far in `buffer`. Returns the buffer and the cursor after the marker.
   */
  function ReadLongStringFrom(s: seq<byte>, pos: nat, buffer: seq<byte>): (r: Option<(seq<byte>, nat)>)
    decreases |s| - pos
    ensures r.None? <==> forall i :: pos <= i < |s| ==> s[i] != EndMarker
    ensures r.Some? ==> pos < r.value.1 <= |s| && s[r.value.1 - 1] == EndMarker
    ensures r.Some? ==> forall i :: pos <= i < r.value.1 - 1 ==> s[i] != EndMarker
    ensures r.Some? ==> var next := r.value.1; r.value.0 == buffer + s[pos..next - 1]
  {
    match Read(s, pos)
    case None => None
    case Some((c, next)) =>
      if c == EndMarker then
        assert s[pos..pos] == [];
        Some((buffer, next))
      else
        var r := ReadLongStringFrom(s, next, buffer + [c]);
        if r.Some? then
          assert s[pos..r.value.1 - 1] == [c] + s[next..r.value.1 - 1];
          r
        else
          r
  }

  /** `readLongString()`: the bytes before the first end marker, which is consumed. */
  function ReadLongString(s: seq<byte>, pos: nat): (r: Option<(seq<byte>, nat)>)
    ensures r.None? <==> forall i :: pos <= i < |s| ==> s[i] != EndMarker
    ensures r.Some? ==> pos < r.value.1 <= |s| && s[r.value.1 - 1] == EndMarker
    ensures r.Some? ==> var next := r.value.1; r.value.0 == s[pos..next - 1]
    ensures r.Some? ==> EndMarker !in r.value.0
  {
    var r := ReadLongStringFrom(s, pos, []);
    if r.Some? then
      assert [] + s[pos..r.value.1 - 1] == s[pos..r.value.1 - 1];
      r
    else
      r
  }

  /** A marker-free payload followed by the marker reads back whole, whatever surrounds it. */
  lemma LongStringRoundTrip(pre: seq<byte>, payload: seq<byte>, rest: seq<byte>)
    requires EndMarker !in payload
    ensures ReadLongString(pre + payload + [EndMarker] + rest, |pre|)
            == Some((payload, |pre| + |payload| + 1))
  {
    var s := pre + payload + [EndMarker] + rest;
    var end := |pre| + |payload| + 1;
    forall i | |pre| <= i < end - 1
      ensures s[i] == payload[i - |pre|] && s[i] != EndMarker
    {
    }
    assert s[end - 1] == EndMarker;
    var r := ReadLongString(s, |pre|);
    assert r.Some?;
    assert r.value.1 == end;
    assert s[|pre|..end - 1] == payload;
  }

  /** The bytes 0x41 0x42 0xFC 0x43 give 0x41 0x42 and leave the cursor on 0x43. */
  lemma LongStringExample()
    ensures ReadLongString([0x41, 0x42, 0xFC, 0x43], 0) == Some(([0x41, 0x42], 3))
  {
    LongStringRoundTrip([], [0x41, 0x42], [0x43]);
    assert [] + [0x41, 0x42] + [EndMarker] + [0x43] == [0x41, 0x42, 0xFC, 0x43];
  }
}

=== FILE: vint.dfy ===
/**
 * `readUnsignedVint`: a big-endian variable-length unsigned integer.
 * Bytes with the high bit clear are continuation bytes carrying 7 bits;
 * the first byte with the high bit set is the terminal byte and carries
 * its low 6 bits. The value is accumulated with 32-bit shifts while fewer
 * than 32 bits are held and with multiply/add afterwards.
 */
module Vint {
  import opened Wrappers
  import opened Arith
  import opened JsBits
  import opened ByteSource

  const BitMask: seq<nat> := [0x00, 0x01, 0x03, 0x07, 0x0f, 0x1f, 0x3f, 0x7f, 0xff]
  const ShiftMultiplier: seq<nat> := [1, 2, 4, 8, 16, 32, 64, 128]

  /** The mask table holds 2^s - 1 and the multiplier table holds 2^s. */
  lemma MaskTables(s: nat)
    requires s < |ShiftMultiplier|
    ensures BitMask[s] == Power(2, s) - 1
    ensures ShiftMultiplier[s] == Power(2, s)
  {
  }

  /** The closure state of `readUnsignedVint`: the value so far and how many bits it holds. */
  datatype Acc = Acc(value: int, bits: nat)

  /** The accumulated value always fits in the bits counted so far. */
  ghost predicate AccInv(acc: Acc)
  {
    0 <= acc.value < Power(2, acc.bits)
  }

  /** The fast path of `safeLeftShift`: `value <<= shift; value |= n & bitMask[shift]`. */
  function FastShift(value: int, n: byte, shift: nat): int
    requires shift < |ShiftMultiplier|
  {
    BitOr(ShiftLeft(value, shift), BitAnd(n, BitMask[shift]))
  }

  /** The slow path of `safeLeftShift`: `value *= shiftMultiplier[shift]; value += n & bitMask[shift]`. */
  function SlowShift(value: int, n: byte, shift: nat): int
    requires shift < |ShiftMultiplier|
  {
    value * ShiftMultiplier[shift] + BitAnd(n, BitMask[shift])
  }

  /** `n & bitMask[shift]` keeps the low `shift` bits of a byte. */
  lemma ByteMask(n: byte, shift: nat)
    requires shift < |ShiftMultiplier|
    ensures BitAnd(n, BitMask[shift]) == n % Power(2, shift)
  {
    MaskTables(shift);
    Int32Identity(n);
    Int32Identity(BitMask[shift]);
    AndLowMask(n, shift);
    Int32Identity(n % Power(2, shift));
  }

  lemma SlowShiftIsArithmetic(value: int, n: byte, shift: nat)
    requires shift < |ShiftMultiplier|
    ensures SlowShift(value, n, shift) == value * Power(2, shift) + n % Power(2, shift)
  {
    MaskTables(shift);
    ByteMask(n, shift);
  }

  lemma FastShiftIsArithmetic(value: int, bits: nat, n: byte, shift: nat)
    requires shift < |ShiftMultiplier|
    requires 0 <= value < Power(2, bits) && bits + shift < 32
    ensures FastShift(value, n, shift) == value * Power(2, shift) + n % Power(2, shift)
  {
    var p := Power(2, shift);
    var m := n % p;
    FastShiftFits(value, bits, p, shift, m);
    ShiftLeftNoWrap(value, shift);
    ByteMask(n, shift);
    BitOrNoCarry(value, shift, m);
  }

  /** While fewer than 32 bits are held, neither the shifted value nor the result reaches 2^31. */
  lemma FastShiftFits(value: nat, bits: nat, p: nat, shift: nat, m: nat)
    requires value < Power(2, bits) && bits + shift < 32
    requires p == Power(2, shift) && m < p
    ensures value < TwoTo31 && value * p + m < TwoTo31
  {
    PowerAdd(2, bits, shift);
    PowerMonotone(2, bits + shift, 31);
    Power2To31();
    MulStrictBound(value, Power(2, bits), p, m);
    if value > 0 {
      MulAtLeast(value, p);
    }
  }

  /** Both branches of `safeLeftShift` compute the same value whenever the fast one may be taken. */
  lemma FastPathAgreesWithSlowPath(value: int, bits: nat, n: byte, shift: nat)
    requires shift < |ShiftMultiplier|
    requires 0 <= value < Power(2, bits) && bits + shift < 32
    ensures FastShift(value, n, shift) == SlowShift(value, n, shift)
  {
    FastShiftIsArithmetic(value, bits, n, shift);
    SlowShiftIsArithmetic(value, n, shift);
  }

  /** Appending `shift` bits to a value of `bits` bits gives a value of `bits + shift` bits. */
  lemma ShiftedFits(value: int, bits: nat, n: byte, shift: nat)
    requires 0 <= value < Power(2, bits)
    ensures 0 <= value * Power(2, shift) + n % Power(2, shift) < Power(2, bits + shift)
  {
    PowerAdd(2, bits, shift);
    MulStrictBound(value, Power(2, bits), Power(2, shift), n % Power(2, shift));
  }

  /** `safeLeftShift(n, shift)`: append the low `shift` bits of n to the accumulator. */
  function SafeLeftShift(acc: Acc, n: byte, shift: nat): (r: Acc)
    requires shift < |ShiftMultiplier|
    requires AccInv(acc)
    ensures r.bits == acc.bits + shift
    ensures r.value == acc.value * Power(2, shift) + n % Power(2, shift)
    ensures AccInv(r)
  {
    ShiftedFits(acc.value, acc.bits, n, shift);
    if acc.bits + shift < 32 then
      FastShiftIsArithmetic(acc.value, acc.bits, n, shift);
      Acc(FastShift(acc.value, n, shift), acc.bits + shift)
    else
      SlowShiftIsArithmetic(acc.value, n, shift);
      Acc(SlowShift(acc.value, n, shift), acc.bits + shift)
  }

  lemma HighBit(n: byte)
    ensures BitAnd(n, 0x80) != 0 <==> n >= 0x80
  {
    Int32Identity(n);
    assert Power(2, 7) == 0x80 && Power(2, 8) == 0x100;
    AndTopBit(n, 7);
    AndAtMost(n, 0x80);
    Int32Identity(And(n, 0x80));
  }

  /** The loop's test `n & 0x80`: truthy exactly for the bytes from 0x80 up. */
  function IsTerminal(n: byte): (t: bool)
    ensures t <==> n >= 0x80
  {
    HighBit(n);
    BitAnd(n, 0x80) != 0
  }

  /** The bytes s[pos..end] are exactly one vint: continuation bytes, then one terminal byte. */
  ghost predicate VintAt(s: seq<byte>, pos: nat, end: nat)
  {
    && pos < end <= |s|
    && s[end - 1] >= 0x80
    && forall i :: pos <= i < end - 1 ==> s[i] < 0x80
  }

  /** Base-128 fold of the 7-bit payloads of continuation bytes, starting from `a`. */
  function Base128From(a: nat, cs: seq<byte>): nat
    decreases cs
  {
    if cs == [] then a else Base128From(a * 128 + cs[0] % 128, cs[1..])
  }

  lemma Base128Cons(a: nat, b: byte, cs: seq<byte>)
    ensures Base128From(a, [b] + cs) == Base128From(a * 128 + b % 128, cs)
  {
    assert ([b] + cs)[1..] == cs;
  }

  /** The value a complete vint denotes: its continuation groups, then the terminal's 6 bits. */
  ghost function VintValue(v: seq<byte>): nat
    requires |v| > 0
  {
    Base128From(0, v[..|v| - 1]) * 64 + v[|v| - 1] % 64
  }

  /**
   * `out` is the accumulator after reading the vint s[pos..end] from `acc`:
   * one more 7-bit group per continuation byte, 6 bits from the terminal byte.
   */
  ghost predicate Accumulated(s: seq<byte>, pos: nat, acc: Acc, end: nat, out: Acc)
  {
    && AccInv(acc)
    && VintAt(s, pos, end)
    && out.value == Base128From(acc.value, s[pos..end - 1]) * 64 + s[end - 1] % 64
    && out.bits == acc.bits + 7 * (end - 1 - pos) + 6
    && AccInv(out)
  }

  /**
   * The `while (true)` loop of `readUnsignedVint`, from accumulator `acc`.
   * Returns the final accumulator and the cursor after the terminal byte.
   */
  function ReadVintFrom(s: seq<byte>, pos: nat, acc: Acc): (r: Option<(Acc, nat)>)
    requires AccInv(acc)
    decreases |s| - pos
    ensures r.None? <==> forall i :: pos <= i < |s| ==> s[i] < 0x80
    ensures r.Some? ==> Accumulated(s, pos, acc, r.value.1, r.value.0)
  {
    match Read(s, pos)
    case None => None
    case Some((n, next)) =>
      if IsTerminal(n) then
        var shifted := SafeLeftShift(acc, n, 6);
        TerminalStep(s, pos, acc, shifted);
        Some((shifted, next))
      else
        var shifted := SafeLeftShift(acc, n, 7);
        var r := ReadVintFrom(s, next, shifted);
        if r.Some? then
          ContinuationStep(s, pos, acc, shifted, r.value.1, r.value.0);
          r
        else
          r
  }

  /** A terminal byte on its own ends the vint with 6 more bits. */
  lemma TerminalStep(s: seq<byte>, pos: nat, acc: Acc, shifted: Acc)
    requires pos < |s| && s[pos] >= 0x80 && AccInv(acc)
    requires shifted.value == acc.value * Power(2, 6) + s[pos] % Power(2, 6)
    requires shifted.bits == acc.bits + 6 && AccInv(shifted)
    ensures Accumulated(s, pos, acc, pos + 1, shifted)
  {
    assert Power(2, 6) == 64;
    assert s[pos..pos] == [];
  }

  /** A continuation byte in front of a vint extends it by one 7-bit group. */
  lemma ContinuationStep(s: seq<byte>, pos: nat, acc: Acc, shifted: Acc, end: nat, out: Acc)
    requires pos < |s| && s[pos] < 0x80 && AccInv(acc)
    requires shifted.value == acc.value * Power(2, 7) + s[pos] % Power(2, 7)
    requires shifted.bits == acc.bits + 7
    requires Accumulated(s, pos + 1, shifted, end, out)
    ensures Accumulated(s, pos, acc, end, out)
  {
    assert Power(2, 7) == 128;
    assert s[pos..end - 1] == [s[pos]] + s[pos + 1..end - 1];
    Base128Cons(acc.value, s[pos], s[pos + 1..end - 1]);
  }

  /** `readUnsignedVint()`. */
  function ReadUnsignedVint(s: seq<byte>, pos: nat): (r: Option<(nat, nat)>)
    ensures r.None? <==> forall i :: pos <= i < |s| ==> s[i] < 0x80
    ensures r.Some? ==> VintAt(s, pos, r.value.1)
    ensures r.Some? ==> var next := r.value.1; r.value.0 == VintValue(s[pos..next])
    ensures r.Some? ==> r.value.0 < Power(2, 7 * (r.value.1 - 1 - pos) + 6)
  {
    match ReadVintFrom(s, pos, Acc(0, 0))
    case None => None
    case Some((acc, next)) =>
      var v := s[pos..next];
      assert v[..|v| - 1] == s[pos..next - 1] && v[|v| - 1] == s[next - 1];
      assert acc.value == VintValue(v);
      assert acc.bits == 7 * (next - 1 - pos) + 6;
      Some((acc.value, next))
  }

  /** Only the first terminal byte can end a vint. */
  lemma VintAtUnique(s: seq<byte>, pos: nat, e1: nat, e2: nat)
    requires VintAt(s, pos, e1) && VintAt(s, pos, e2)
    ensures e1 == e2
  {
  }

  lemma {:induction false} Base128Snoc(a: nat, cs: seq<byte>, b: byte)
    ensures Base128From(a, cs + [b]) == Base128From(a, cs) * 128 + b % 128
    decreases cs
  {
    if cs != [] {
      assert (cs + [b])[1..] == cs[1..] + [b];
      Base128Snoc(a * 128 + cs[0] % 128, cs[1..], b);
    }
  }

  /** Continuation bytes for q, most significant group first; no bytes for 0. */
  function Encode7(q: nat): (e: seq<byte>)
    ensures forall i :: 0 <= i < |e| ==> e[i] < 0x80
  {
    if q == 0 then [] else Encode7(q / 128) + [q % 128]
  }

  /** The wire form of an unsigned vint, as an encoder writes it. */
  function EncodeVint(v: nat): seq<byte>
  {
    Encode7(v / 64) + [0x80 + v % 64]
  }

  lemma {:induction false} Encode7Folds(q: nat)
    ensures Base128From(0, Encode7(q)) == q
  {
    if q > 0 {
      Encode7Folds(q / 128);
      Base128Snoc(0, Encode7(q / 128), q % 128);
      assert Encode7(q) == Encode7(q / 128) + [q % 128];
      assert (q / 128) * 128 + q % 128 == q;
    }
  }

  /** The encoder and the value a vint denotes are inverse. */
  lemma EncodedValue(v: nat)
    ensures VintValue(EncodeVint(v)) == v
  {
    var e := EncodeVint(v);
    assert e[..|e| - 1] == Encode7(v / 64);
    Encode7Folds(v / 64);
  }

  /** An encoded vint embedded in any input is exactly one vint there. */
  lemma EncodedIsVint(pre: seq<byte>, v: nat, rest: seq<byte>)
    ensures VintAt(pre + EncodeVint(v) + rest, |pre|, |pre| + |EncodeVint(v)|)
    ensures (pre + EncodeVint(v) + rest)[|pre|..|pre| + |EncodeVint(v)|] == EncodeVint(v)
  {
    var e := EncodeVint(v);
    var s := pre + e + rest;
    var end := |pre| + |e|;
    forall i | |pre| <= i < end
      ensures s[i] == e[i - |pre|]
    {
    }
    assert s[|pre|..end] == e;
    forall i | |pre| <= i < end - 1
      ensures s[i] < 0x80
    {
      assert s[i] == Encode7(v / 64)[i - |pre|];
    }
  }

  /** Decoding an encoded vint, wherever it sits in the input, returns the value and stops right after it. */
  lemma VintRoundTrip(pre: seq<byte>, v: nat, rest: seq<byte>)
    ensures ReadUnsignedVint(pre + EncodeVint(v) + rest, |pre|) == Some((v, |pre| + |EncodeVint(v)|))
  {
    var e := EncodeVint(v);
    var s := pre + e + rest;
    var end := |pre| + |e|;
    EncodedIsVint(pre, v, rest);
    var r := ReadUnsignedVint(s, |pre|);
    assert !(s[end - 1] < 0x80);
    VintAtUnique(s, |pre|, r.value.1, end);
    EncodedValue(v);
  }

  /** An encoded vint found at the cursor, whatever surrounds it, decodes to its value and stops right after it. */
  lemma VintInPlace(s: seq<byte>, pos: nat, v: nat)
    requires pos + |EncodeVint(v)| <= |s|
    requires s[pos..pos + |EncodeVint(v)|] == EncodeVint(v)
    ensures ReadUnsignedVint(s, pos) == Some((v, pos + |EncodeVint(v)|))
  {
    var e := EncodeVint(v);
    var end := pos + |e|;
    forall i | pos <= i < end
      ensures s[i] == e[i - pos]
    {
      assert s[pos..end][i - pos] == s[i];
    }
    forall i | pos <= i < end - 1
      ensures s[i] < 0x80
    {
      assert s[i] == Encode7(v / 64)[i - pos];
    }
    var r := ReadUnsignedVint(s, pos);
    assert !(s[end - 1] < 0x80);
    VintAtUnique(s, pos, r.value.1, end);
    EncodedValue(v);
  }

  /** A lone terminal byte n decodes to `n & 0x3F` and consumes one byte. */
  lemma LoneTerminalByte(n: byte, rest: seq<byte>)
    requires n >= 0x80
    ensures ReadUnsignedVint([n] + rest, 0).Some?
    ensures ReadUnsignedVint([n] + rest, 0).value == (BitAnd(n, 0x3F), 1)
  {
    var s := [n] + rest;
    var r := ReadUnsignedVint(s, 0);
    assert !(s[0] < 0x80);
    VintAtUnique(s, 0, r.value.1, 1);
    assert s[0..1] == [n];
    assert BitMask[6] == 0x3F;
    ByteMask(n, 6);
    MaskTables(6);
  }
}

=== FILE: wrappers.dfy ===
/** The optional result of every read that can run off the end of the input. */
module Wrappers {

  datatype Option<T> = None | Some(value: T)
}
